=== FILE: README.md ===
# Pariffiliator link generator, modelled in Dafny

Pariffiliator is a one-page React tool. It turns an Amazon product URL pasted
by the user into an affiliate link carrying the Associates tag
`pariasabet09-20`, and shortens that link through a URL-shortening service.
This project models the decision logic of its single component,
`src/App.tsx`:

- **Canonicaliser** (`Canonical.Canonicalize`). It trims the input and
  rejects empty text. It prepends `https://` when the text has no
  `http://`/`https://` prefix, then parses the URL. It rejects hostnames
  without `amazon`. With an ASIN in the path it builds the minimal
  `https://{host}/dp/{asin}?tag=…` link. Otherwise it sets `tag` and deletes
  `ref` and `ref_` in the query.
- **ASIN extraction** (`Asin.Extract`): the regular expression
  `(?:\/dp\/|\/gp\/product\/)([a-zA-Z0-9]{10})`, written out as the
  left-to-right search ECMAScript performs (ECMA-262, section 22.2).
- **Query mutations** (`Urls.Set`, `Urls.Delete`): `URLSearchParams.set` and
  `URLSearchParams.delete` over an ordered list of name/value pairs, as the
  WHATWG URL Standard, section 6.2, defines them.
- **Shortener fallback** (`Shortener.Shorten`): the fail-open rule of
  `shortenUrl`, from the request's outcome to the returned link.
- **Component state** (`Ui.Step`): the five `useState` cells as one record
  and every event as a reducer action. The `await` splits `generateLink`
  into a start step and a resolve step. The Enter-key and disabled-button
  guards on `loading` are part of the reducer. The reducer takes the
  canonicaliser as a parameter `clean`, the text handed to the shortener or
  the failure; `Pipeline.Cleaner` plugs in `Canonical.CleanUrl`, and the
  `Pipeline` lemmas state what the wired component shows.

URL parsing and serialization are parameters (`parse: string -> Option<Url>`
answers None where `new URL` throws; `serialize: Url -> string` stands for
`url.toString()`). Every property is proved for all such functions, except
where a lemma states what it assumes of them in its `requires`.

The model follows the code:
- there is no allow-list of short-domain aliases; only the `amazon`
  substring test on the hostname;
- the `/dp/` and `/gp/product/` markers are matched case-sensitively;
- the regular expression is not anchored after the ten captured characters,
  so further alphanumerics after them are ignored.

Files: `wrappers.dfy` (Option, Result), `text.dfy` (trim, startsWith,
includes), `url.dfy` (URL record, query list operations), `asin.dfy`,
`canonical.dfy`, `shortener.dfy`, `ui.dfy`, `pipeline.dfy` (the reducer
with the canonicaliser plugged in), `scenarios.dfy` (worked examples
stated as lemmas about the model).

## Model

| member | source | states |
|---|---|---|
| `Text.Trim` | src/App.tsx:40 | the trimmed text is no longer than the input, and when non-empty neither starts nor ends with ECMAScript white space |
| `Text.TrimIsSlice` | src/App.tsx:40 | trim keeps one contiguous slice of the input and only white space lies outside it |
| `Text.TrimEmptyIff` | src/App.tsx:33 | the trimmed text is empty exactly when every character of the input is white space, the condition for "Enter URL" |
| `Text.TrimIdempotent` | src/App.tsx:33-40 | trimming twice equals trimming once |
| `Text.ContainsIff` | src/App.tsx:47 | the `includes` search succeeds exactly when the marker occurs at some offset of the hostname |
| `Urls.FirstIndex` | src/App.tsx:66 | the index of the first entry with a name: the entry there has the name, and the index is the length exactly when no entry has it |
| `Urls.BeforeFirst` | src/App.tsx:66 | no entry before the first entry with a name has that name |
| `Urls.FirstIndexAt` | src/App.tsx:66 | an entry with the name and none before it is the first one |
| `Urls.Delete` | src/App.tsx:67-68 | `delete` leaves no entry with the name and never grows the list |
| `Urls.DeleteMembers` | src/App.tsx:67-68 | an entry survives `delete` exactly when it was present and has another name |
| `Urls.DeleteConcat` | src/App.tsx:67-68 | `delete` works entry by entry, so the kept entries stay in their original order |
| `Urls.DeleteAbsent` | src/App.tsx:67-68 | deleting a name no entry has leaves the list unchanged |
| `Urls.DeleteCommute` | src/App.tsx:67-68 | deleting `ref` then `ref_` equals deleting them in the other order |
| `Urls.Set` | src/App.tsx:66 | `searchParams.set`; its contract is stated by `Urls.SetAtFirst`, `Urls.SetAppends`, `Urls.SetCountsOnce`, `Urls.SetValues` and `Urls.SetKeepsOthers` |
| `Urls.SetCountsOnce` | src/App.tsx:66 | after `set` exactly one entry has the name |
| `Urls.SetValues` | src/App.tsx:66 | after `set` every entry with the name holds the new value |
| `Urls.SetKeepsOthers` | src/App.tsx:66 | `set` leaves the entries with other names unchanged and in order |
| `Urls.SetAfterPrefix` | src/App.tsx:66 | entries before the first occurrence of the name pass through `set` untouched |
| `Urls.SetAtFirst` | src/App.tsx:66 | when the name is present, `set` writes at its first occurrence, keeps everything before it and drops later duplicates |
| `Urls.SetAppends` | src/App.tsx:66 | when the name is absent, `set` appends one entry at the end |
| `Asin.MatchAt` | src/App.tsx:54-56 | an attempt at one start offset captures ten alphanumerics right after a `/dp/` or `/gp/product/` marker there, and fails only when neither alternative matches |
| `Asin.SearchFrom` | src/App.tsx:54-56 | a capture found from an offset is ten `[A-Za-z0-9]` characters; nothing is found only when no start offset from there to the end matches |
| `Asin.SearchFromFinds` | src/App.tsx:54-56 | a successful search stopped at a matching offset with no match between the starting offset and it |
| `Asin.Extract` | src/App.tsx:54-56 | a found ASIN has ten `[A-Za-z0-9]` characters and is the capture at a matching offset with no match before it; nothing is found exactly when no offset matches |
| `Asin.ExtractIsLeftmost` | src/App.tsx:54-56 | any matching offset with no match before it determines the result, so the leftmost match wins |
| `Asin.DpAfterPrefix` | src/App.tsx:54-56 | `/dp/` plus an ASIN after a prefix without matches yields that ASIN, whatever follows it |
| `Asin.DpPathYieldsAsin` | src/App.tsx:54-56 | a path starting `/dp/{asin}` yields the ASIN, trailing alphanumerics included or not |
| `Asin.GpPathYieldsAsin` | src/App.tsx:54-56 | a path starting `/gp/product/{asin}` yields the ASIN whatever follows |
| `Asin.SlugHoldsNoMatch` | src/App.tsx:54-56 | a leading path segment of three or more characters without a slash holds no match, so the search continues past a product slug |
| `Asin.UpperCaseMarkerYieldsNothing` | src/App.tsx:54-56 | `/DP/{asin}` yields no ASIN, so the markers are case-sensitive |
| `Canonical.Message` | src/App.tsx:33-75 | the text shown for each refusal (lines 34, 48 and 75); `Canonical.MessagesDistinct` states that the three are non-empty and pairwise different |
| `Canonical.MessagesDistinct` | src/App.tsx:33-75 | the three error messages are non-empty and pairwise different |
| `Canonical.WithScheme` | src/App.tsx:40-43 | the result starts with `http://` or `https://`; text that already does is unchanged, any other gets exactly one `https://` in front |
| `Canonical.WithSchemeIdempotent` | src/App.tsx:40-43 | defaulting the scheme twice equals doing it once |
| `Canonical.Others` | src/App.tsx:64-69 | the query without its `tag`, `ref` and `ref_` entries holds none of those names |
| `Canonical.Rewrite` | src/App.tsx:66-68 | the three query calls of the no-ASIN branch; its contract is stated by `Canonical.RewriteAtFirstTag`, `Canonical.RewriteAppendsTag`, `Canonical.RewriteTagsOnce` and `Canonical.RewriteIdempotent` |
| `Canonical.RewriteUrl` | src/App.tsx:64-69 | the no-ASIN rewrite changes only the query; protocol, hostname, port, path and fragment are kept |
| `Canonical.RewriteAtFirstTag` | src/App.tsx:66-68 | with a `tag` entry, the rewritten query is the other entries before the first `tag`, then `tag=pariasabet09-20`, then the other entries after it |
| `Canonical.RewriteAppendsTag` | src/App.tsx:66-68 | without a `tag` entry, the rewritten query is the other entries followed by `tag=pariasabet09-20` |
| `Canonical.RewriteTagsOnce` | src/App.tsx:64-69 | the rewritten query has exactly one `tag` entry, valued with the affiliate tag, no `ref` or `ref_`, and every other entry of the original in order |
| `Canonical.RewriteShape` | src/App.tsx:64-69 | every rewritten query is a query without `tag`, `ref` and `ref_` entries with one `tag=pariasabet09-20` entry inserted |
| `Canonical.FirstTagBetween` | src/App.tsx:66 | in such a query the inserted entry is the first `tag` entry |
| `Canonical.RewriteFixesTagBetween` | src/App.tsx:64-69 | the rewrite leaves such a query unchanged |
| `Canonical.RewriteIdempotent` | src/App.tsx:64-69 | rewriting a rewritten query changes nothing |
| `Canonical.Canonicalize` | src/App.tsx:33-70 | it fails with EmptyInput exactly for all-white-space input, with MalformedUrl exactly when the parse fails, and with NotAmazon exactly when the hostname lacks `amazon`; on success the result is the ASIN link for the extracted ASIN or the rewritten parsed URL |
| `Canonical.AsinOutputIgnoresRest` | src/App.tsx:60-63 | with an ASIN the link is exactly `https://{host}/dp/{asin}?tag=pariasabet09-20`, equal for any two inputs with the same host and ASIN, whatever their scheme, query or other path segments |
| `Canonical.AsinLinkText` | src/App.tsx:63 | the minimal link text; `Canonical.AsinLinkTextShape` and `Canonical.AsinOutputIgnoresRest` state its shape |
| `Canonical.LinkText` | src/App.tsx:58-70 | the text of a canonical result: the minimal link, or the serialized rewritten URL; `Canonical.AsinLinkIsFixpoint` and `Canonical.TaggedUrlIsFixpoint` state that it canonicalises back to the same result |
| `Canonical.CleanUrl` | src/App.tsx:33-70 | `cleanUrl` or the refusal; `Pipeline.RefusalShowsMessage`, `Pipeline.ShortenerDownShowsMinimalLink` and `Pipeline.ShortenerUpShowsShortLink` state what it shows once plugged into the reducer |
| `Canonical.SchemedTextParsedAsIs` | src/App.tsx:40-45 | text starting with `http://` or `https://` and ending in a non-blank character is neither trimmed nor given another scheme before parsing |
| `Canonical.AsinLinkTextShape` | src/App.tsx:61-63 | the minimal link starts with `https://` and ends with `?tag=pariasabet09-20`, so no white space can be trimmed from its end |
| `Canonical.AsinLinkIsFixpoint` | src/App.tsx:40-63 | a minimal ASIN link fed back in canonicalises to itself |
| `Canonical.TaggedUrlIsFixpoint` | src/App.tsx:40-70 | a rewritten URL whose serialized text starts with `http://` or `https://`, ends in a non-blank character and parses back to it canonicalises to itself, so the tag is never duplicated |
| `Shortener.Shorten` | src/App.tsx:13-25 | with an ok response the result is its body; with a non-ok status or a thrown error it is the input link unchanged; it never fails |
| `Ui.StartGenerate` | src/App.tsx:27-51 | a run clears the link and copy flag and keeps the input; a failure shows its message with `loading` false and nothing sent; a success clears the error, keeps `loading` true and waits on the shortener for the clean link |
| `Ui.FinishGenerate` | src/App.tsx:72-78 | resolving shows the shortener's answer for the pending link and lowers `loading`; with no pending call nothing changes |
| `Ui.CopyLink` | src/App.tsx:81-85 | copy does nothing without a link and otherwise only raises the copy flag |
| `Ui.Step` | src/App.tsx:27-141 | one user or timer event; its contract is stated by `Ui.StepKeepsValid` and, for the guards at lines 132 and 141, `Ui.NoGenerateWhileLoading` |
| `Ui.Run` | src/App.tsx:27-141 | a sequence of events; `Ui.RunKeepsValid` states that it keeps the invariant |
| `Ui.InitialValid` | src/App.tsx:7-11 | the initial state satisfies the state invariant |
| `Ui.StepKeepsValid` | src/App.tsx:27-86 | every action keeps the invariant: a run is in flight exactly while `loading` is true; an error and a link are never shown together; the copy flag needs a link; the error is empty or one of the three messages |
| `Ui.RunKeepsValid` | src/App.tsx:27-86 | every sequence of actions from a valid state ends in a valid state |
| `Ui.NoGenerateWhileLoading` | src/App.tsx:131-141 | while `loading` is true neither Enter nor the button changes the state |
| `Ui.FailureNeverShortens` | src/App.tsx:33-51 | a failed canonicalisation shows its message, leaves the link empty, lowers `loading`, and a later resolution changes nothing |
| `Ui.SuccessShowsShortLink` | src/App.tsx:72-78 | a successful run waits with `loading` true and then shows the response body on success or the clean link otherwise, with `loading` false |
| `Ui.FailedShorteningShowsCleanLink` | src/App.tsx:13-24 | from any valid state that is not loading, typing, generating and a failed shortening call show the clean link itself, with no error, the copy flag cleared and every other field kept |
| `Pipeline.Cleaner` | src/App.tsx:33-70 | the canonicaliser as the reducer's clean step; the three `Pipeline` lemmas below state its effect |
| `Pipeline.RefusalShowsMessage` | src/App.tsx:27-51 | with the canonicaliser plugged in, a refused input shows the refusal's message, no link, `loading` lowered, and no shortening call is pending |
| `Pipeline.ShortenerDownShowsMinimalLink` | src/App.tsx:13-24 | from any valid state that is not loading, typing an input with an ASIN, generating and a failed shortening call show exactly `https://{host}/dp/{asin}?tag=pariasabet09-20` |
| `Pipeline.ShortenerUpShowsShortLink` | src/App.tsx:72-78 | when the shortener answers, the answer is the link shown, with no error and `loading` lowered |
| `Scenarios.LongProductPathAsin` | src/App.tsx:54-56 | `/Some-Product/dp/B012345678/ref=sr_1_1` yields ASIN `B012345678` |
| `Scenarios.BareInputGetsScheme` | src/App.tsx:40-45 | input with no scheme and no white space at its ends is parsed with `https://` in front |
| `Scenarios.BareAmazonInputGivesAsinLink` | src/App.tsx:40-63 | such input on an Amazon host whose path carries an ASIN gives the minimal link for that host and ASIN |
| `Scenarios.ShortDomainInputCanonical` | src/App.tsx:40-63 | `amazon.com/dp/B08N5WRWNW?ref=xyz` canonicalises to the ASIN link for `B08N5WRWNW` on `amazon.com` |
| `Scenarios.EmptyInputAsksForUrl` | src/App.tsx:33-36 | generating from any state that is not loading, with empty or all-blank input, shows "Enter URL" whatever the parser does |
| `Scenarios.UnparsableInputIsInvalid` | src/App.tsx:45 | `not a url`, when the parser rejects `https://not a url`, fails as MalformedUrl, shown as "Invalid URL" |
| `Scenarios.SchemedForeignHostRefused` | src/App.tsx:40-50 | any `http://` or `https://` input with no white space at its end whose parsed hostname lacks `amazon` fails as NotAmazon, whatever its path or query |
| `Scenarios.GoogleIsForeign` | src/App.tsx:47 | `google.com` lacks the `amazon` marker |
| `Scenarios.OtherRetailerIsRefused` | src/App.tsx:47-50 | `https://google.com` fails as NotAmazon |

## Left out

- URL parsing and serialization (`new URL`, `url.toString()`): host parsing,
  IDNA, hostname lower-casing, percent-encoding and the
  `application/x-www-form-urlencoded` serializer are parameters, not models.
  Username and password are not fields of the URL record; they only matter
  to the serializer.
- The shortening request: `fetch`, `encodeURIComponent` on the argument and
  `console.error`. Only the outcome-to-link rule is modelled.
- Ui.CopyLink: assumes the clipboard call returns. Where
  `navigator.clipboard` is missing, as on a non-secure origin, line 83 of
  src/App.tsx throws and `copied` stays false; the model does not represent
  that outcome.
- The clipboard write and the 2000 ms timer. The timer's callback is the
  `CopyTimerFired` action, which always lowers the copy flag, as the
  callback does.
- React rendering, JSX and styling. Only the two `loading` guards are kept.
- Overlapping runs of `generateLink`. The guards allow at most one run in
  flight, so the `await` is two sequential steps. `Ui.NoGenerateWhileLoading`
  proves that no second run can start.
- Text is a sequence of characters. UTF-16 surrogate code units are not
  distinguished from characters; every white-space character `trim` removes
  lies in the Basic Multilingual Plane.

=== FILE: asin.dfy ===
/** Extraction of an ASIN (Amazon Standard Identification Number) from a URL
    path, as the regular expression `(?:\/dp\/|\/gp\/product\/)([a-zA-Z0-9]{10})`
    does it under ECMAScript semantics (ECMA-262, section 22.2): no flags, so
    the markers are case-sensitive; no anchors, so the match may start
    anywhere and what follows the ten captured characters is ignored; the
    search tries start positions from left to right and, at each one, the
    `/dp/` alternative before the `/gp/product/` one. */
module Asin {
  import opened Wrappers
  import opened Text

  const DpMarker: string := "/dp/"
  const GpMarker: string := "/gp/product/"
  const AsinLength: nat := 10

  /** A well-formed ASIN: ten characters of `[a-zA-Z0-9]`. */
  predicate IsAsin(a: string) {
    |a| == AsinLength && AllAsciiAlnum(a)
  }

  /** The capture group `([a-zA-Z0-9]{10})` matches at offset j. */
  predicate TokenAt(path: string, j: int) {
    0 <= j && j + AsinLength <= |path| && AllAsciiAlnum(path[j..j + AsinLength])
  }

  /** One attempt of the matcher with its start at offset i: the first
      alternative that matches gives the capture. */
  function MatchAt(path: string, i: int): (r: Option<string>)
    ensures r.Some? ==> IsAsin(r.value)
    ensures r.Some? ==> exists m :: (m == DpMarker || m == GpMarker) && OccursAt(path, m, i)
                               && TokenAt(path, i + |m|) && r.value == path[i + |m|..i + |m| + AsinLength]
    ensures r.None? ==> (!(OccursAt(path, DpMarker, i) && TokenAt(path, i + |DpMarker|))
                         && !(OccursAt(path, GpMarker, i) && TokenAt(path, i + |GpMarker|)))
  {
    if OccursAt(path, DpMarker, i) && TokenAt(path, i + |DpMarker|) then
      Some(path[i + |DpMarker|..i + |DpMarker| + AsinLength])
    else if OccursAt(path, GpMarker, i) && TokenAt(path, i + |GpMarker|) then
      Some(path[i + |GpMarker|..i + |GpMarker| + AsinLength])
    else
      None
  }

  /** No attempt with its start in [lo, hi) matches. */
  predicate NoMatchIn(path: string, lo: int, hi: int) {
    forall j :: lo <= j < hi ==> MatchAt(path, j).None?
  }

  /** The search loop of `RegExpBuiltinExec` from start position i: a start
      position beyond the end of the path fails, a failed attempt moves one
      position right. */
  function SearchFrom(path: string, i: nat): (r: Option<string>)
    ensures r.Some? ==> IsAsin(r.value)
    ensures r.None? ==> NoMatchIn(path, i, |path| + 1)
    decreases |path| + 1 - i
  {
    if i > |path| then None
    else match MatchAt(path, i)
      case Some(a) => Some(a)
      case None => SearchFrom(path, i + 1)
  }

  /** A successful search stopped at some position: that position matches
      with the found capture and every earlier one from i fails. */
  lemma {:induction false} SearchFromFinds(path: string, i: nat)
    requires SearchFrom(path, i).Some?
    ensures exists k :: i <= k <= |path| && MatchAt(path, k) == SearchFrom(path, i) && NoMatchIn(path, i, k)
    decreases |path| + 1 - i
  {
    if MatchAt(path, i).Some? {
      assert NoMatchIn(path, i, i);
    } else {
      SearchFromFinds(path, i + 1);
      var k :| i + 1 <= k <= |path| && MatchAt(path, k) == SearchFrom(path, i + 1) && NoMatchIn(path, i + 1, k);
      assert NoMatchIn(path, i, k);
    }
  }

  /** `pathname.match(...)[1]`: the ASIN of the leftmost match, if any. */
  function Extract(path: string): (r: Option<string>)
    ensures r.Some? ==> IsAsin(r.value)
    ensures r.Some? ==> exists k :: 0 <= k <= |path| && MatchAt(path, k) == r && NoMatchIn(path, 0, k)
    ensures r.None? <==> NoMatchIn(path, 0, |path| + 1)
  {
    var r := SearchFrom(path, 0);
    if r.Some? then
      SearchFromFinds(path, 0);
      r
    else r
  }

  /** The ASIN found is the capture of the leftmost matching start position:
      any position that matches with no match before it gives the result. */
  lemma ExtractIsLeftmost(path: string, k: int)
    requires 0 <= k <= |path| && MatchAt(path, k).Some? && NoMatchIn(path, 0, k)
    ensures Extract(path) == MatchAt(path, k)
  {
    var r := Extract(path);
    var k' :| 0 <= k' <= |path| && MatchAt(path, k') == r && NoMatchIn(path, 0, k');
  }

  /** A `/dp/` marker followed by an ASIN, with no match starting before it,
      yields that ASIN, whatever follows it, alphanumeric or not. */
  lemma DpAfterPrefix(pre: string, a: string, rest: string)
    requires IsAsin(a) && NoMatchIn(pre + DpMarker + a + rest, 0, |pre|)
    ensures Extract(pre + DpMarker + a + rest) == Some(a)
  {
    var path := pre + DpMarker + a + rest;
    var i := |pre|;
    assert path[i..i + |DpMarker|] == DpMarker;
    assert path[i + |DpMarker|..i + |DpMarker| + AsinLength] == a;
    assert MatchAt(path, i) == Some(a);
    ExtractIsLeftmost(path, i);
  }

  /** In particular a path that starts with `/dp/` and an ASIN yields it. */
  lemma DpPathYieldsAsin(a: string, rest: string)
    requires IsAsin(a)
    ensures Extract(DpMarker + a + rest) == Some(a)
  {
    assert [] + DpMarker + a + rest == DpMarker + a + rest;
    DpAfterPrefix([], a, rest);
  }

  /** The same for a path that starts with `/gp/product/`. */
  lemma GpPathYieldsAsin(a: string, rest: string)
    requires IsAsin(a)
    ensures Extract(GpMarker + a + rest) == Some(a)
  {
    var path := GpMarker + a + rest;
    assert path[..|GpMarker|] == GpMarker;
    assert path[..|DpMarker|] != DpMarker by {
      assert path[..|DpMarker|][1] == 'g';
    }
    assert path[|GpMarker|..|GpMarker| + AsinLength] == a;
    assert MatchAt(path, 0) == Some(a);
  }

  /** Both markers begin with a slash, continue with `d` or `g` and have a
      slash at offset 3, so an attempt can only match where the path has
      those characters. */
  lemma MatchNeedsMarkerShape(path: string, i: int)
    ensures MatchAt(path, i).Some? ==>
      && 0 <= i && i + 3 < |path|
      && path[i] == '/' && (path[i + 1] == 'd' || path[i + 1] == 'g') && path[i + 3] == '/'
  {
    if OccursAt(path, DpMarker, i) {
      assert path[i..i + 4][0] == path[i];
      assert path[i..i + 4][1] == path[i + 1];
      assert path[i..i + 4][3] == path[i + 3];
    } else if OccursAt(path, GpMarker, i) {
      assert path[i..i + 12][0] == path[i];
      assert path[i..i + 12][1] == path[i + 1];
      assert path[i..i + 12][3] == path[i + 3];
    }
  }

  /** A path segment of at least three characters without a slash, after
      the leading slash, holds no match: `/Some-Product/dp/...` is searched
      past its slug. */
  lemma SlugHoldsNoMatch(slug: string, tail: string)
    requires |slug| >= 3 && '/' !in slug
    ensures NoMatchIn("/" + slug + tail, 0, 1 + |slug|)
  {
    var path := "/" + slug + tail;
    forall j | 0 <= j < 1 + |slug| ensures MatchAt(path, j).None? {
      MatchNeedsMarkerShape(path, j);
      if j == 0 {
        assert path[3] == slug[2];
      } else {
        assert path[j] == slug[j - 1];
      }
    }
  }

  /** The markers are matched case-sensitively: `/DP/` followed by an ASIN
      yields no ASIN. */
  lemma UpperCaseMarkerYieldsNothing(a: string)
    requires IsAsin(a)
    ensures Extract("/DP/" + a) == None
  {
    var path := "/DP/" + a;
    forall k | 0 <= k <= |path| ensures MatchAt(path, k).None? {
      MatchNeedsMarkerShape(path, k);
      if k == 0 {
        assert path[1] == 'D';
      } else if k + 3 < |path| {
        assert path[k + 3] == a[k - 1];
      }
    }
  }
}

=== FILE: canonical.dfy ===
/** The canonicalisation half of `generateLink`: from the text box content to
    the clean, tagged link that is handed to the shortener. URL parsing and
    serialization (the WHATWG URL parser behind `new URL` and `toString`) are
    parameters: `parse` answers None where `new URL` throws. */
module Canonical {
  import opened Wrappers
  import opened Text
  import opened Urls
  import Asin

  /** The Amazon Associates tag injected into every link. */
  const AffiliateTag: string := "pariasabet09-20"
  const TagName: string := "tag"
  const RefName: string := "ref"
  const RefUnderscoreName: string := "ref_"
  /** The substring a hostname must contain to be accepted. */
  const RetailerMarker: string := "amazon"
  const Http: string := "http://"
  const Https: string := "https://"
  /** The query of the minimal ASIN link, up to the tag value. */
  const TagQuery: string := "?tag="

  /** The query entry carrying the affiliate tag. */
  const TagParam: Param := Param(TagName, AffiliateTag)

  /** Why canonicalisation stopped. */
  datatype Failure = EmptyInput | MalformedUrl | NotAmazon

  /** The message the user sees for each failure. */
  function Message(f: Failure): string {
    match f
    case EmptyInput => "Enter URL"
    case MalformedUrl => "Invalid URL"
    case NotAmazon => "Not an Amazon URL"
  }

  /** Every failure has its own, non-empty message, so an empty error field
      always means no failure. */
  lemma MessagesDistinct(f: Failure, g: Failure)
    ensures Message(f) != ""
    ensures Message(f) == Message(g) ==> f == g
  {
  }

  /** The link handed to the shortener: the minimal product link when an ASIN
      was found, otherwise the parsed URL with its query rewritten. */
  datatype CleanLink = AsinLink(host: string, asin: string) | Tagged(url: Url)

  /** Scheme defaulting: input that does not literally start with `http://`
      or `https://` gets `https://` in front. */
  function WithScheme(s: string): (r: string)
    ensures StartsWith(r, Http) || StartsWith(r, Https)
    ensures StartsWith(s, Http) || StartsWith(s, Https) ==> r == s
    ensures !(StartsWith(s, Http) || StartsWith(s, Https)) ==> r == Https + s
  {
    if StartsWith(s, Http) || StartsWith(s, Https) then s else Https + s
  }

  /** Defaulting the scheme of an already defaulted string changes nothing. */
  lemma WithSchemeIdempotent(s: string)
    ensures WithScheme(WithScheme(s)) == WithScheme(s)
  {
  }

  /** The query entries other than `tag`, `ref` and `ref_`, in their order. */
  function Others(q: seq<Param>): (r: seq<Param>)
    ensures !HasName(r, TagName) && !HasName(r, RefName) && !HasName(r, RefUnderscoreName)
  {
    var a := Delete(q, TagName);
    DeleteKeepsAbsent(a, RefName, TagName);
    var b := Delete(a, RefName);
    DeleteKeepsAbsent(b, RefUnderscoreName, TagName);
    DeleteKeepsAbsent(b, RefUnderscoreName, RefName);
    Delete(b, RefUnderscoreName)
  }

  /** The query rewrite of the no-ASIN branch: `set("tag", AffiliateTag)`,
      then `delete("ref")`, then `delete("ref_")`. */
  function Rewrite(q: seq<Param>): seq<Param> {
    Delete(Delete(Set(q, TagName, AffiliateTag), RefName), RefUnderscoreName)
  }

  /** The URL of the no-ASIN branch: only the query changes. */
  function RewriteUrl(u: Url): (v: Url)
    ensures v.protocol == u.protocol && v.hostname == u.hostname && v.port == u.port
    ensures v.pathname == u.pathname && v.hash == u.hash
    ensures v.query == Rewrite(u.query)
  {
    u.(query := Rewrite(u.query))
  }

  /** The parse of the trimmed, scheme-defaulted input. */
  function ParseInput(input: string, parse: string -> Option<Url>): Option<Url> {
    parse(WithScheme(Trim(input)))
  }

  /** Input with no white space at either end is parsed as typed, after
      scheme defaulting. */
  lemma ParseUnpadded(input: string, parse: string -> Option<Url>)
    requires |input| > 0 && !IsWhitespace(input[0]) && !IsWhitespace(input[|input| - 1])
    ensures !AllWhitespace(input)
    ensures ParseInput(input, parse) == parse(WithScheme(input))
  {
    TrimKeepsUnpadded(input);
  }

  /** Lines 33-70 of the component: trim, reject empty input, default the
      scheme, parse, require the retailer marker in the hostname, then build
      the ASIN link or rewrite the query. */
  function Canonicalize(input: string, parse: string -> Option<Url>): (r: Result<CleanLink, Failure>)
    ensures r == Failure(EmptyInput) <==> AllWhitespace(input)
    ensures r == Failure(MalformedUrl) <==> !AllWhitespace(input) && ParseInput(input, parse).None?
    ensures r == Failure(NotAmazon) <==> !AllWhitespace(input) && ParseInput(input, parse).Some?
                                          && !Contains(ParseInput(input, parse).value.hostname, RetailerMarker)
    ensures r.Success? ==> ParseInput(input, parse).Some?
                           && Contains(ParseInput(input, parse).value.hostname, RetailerMarker)
    ensures r.Success? && r.value.AsinLink? ==>
              var u := ParseInput(input, parse).value;
              r.value.host == u.hostname && Asin.Extract(u.pathname) == Some(r.value.asin)
    ensures r.Success? && r.value.Tagged? ==>
              var u := ParseInput(input, parse).value;
              Asin.Extract(u.pathname).None? && r.value.url == RewriteUrl(u)
  {
    var s := Trim(input);
    TrimEmptyIff(input);
    if s == [] then Failure(EmptyInput)
    else match parse(WithScheme(s))
      case None => Failure(MalformedUrl)
      case Some(u) =>
        if !Contains(u.hostname, RetailerMarker) then Failure(NotAmazon)
        else match Asin.Extract(u.pathname)
          case Some(a) => Success(AsinLink(u.hostname, a))
          case None => Success(Tagged(RewriteUrl(u)))
  }

  /** The minimal link built for an ASIN. */
  function AsinLinkText(host: string, asin: string): string {
    Https + host + Asin.DpMarker + asin + TagQuery + AffiliateTag
  }

  /** The string handed to the shortener (`cleanUrl`). */
  function LinkText(c: CleanLink, serialize: Url -> string): string {
    match c
    case AsinLink(h, a) => AsinLinkText(h, a)
    case Tagged(u) => serialize(u)
  }

  /** Others works entry by entry. */
  lemma OthersConcat(a: seq<Param>, b: seq<Param>)
    ensures Others(a + b) == Others(a) + Others(b)
  {
    DeleteConcat(a, b, TagName);
    DeleteConcat(Delete(a, TagName), Delete(b, TagName), RefName);
    DeleteConcat(Delete(Delete(a, TagName), RefName), Delete(Delete(b, TagName), RefName), RefUnderscoreName);
  }

  /** A query without `tag`, `ref` and `ref_` entries is left alone. */
  lemma OthersFixes(q: seq<Param>)
    requires !HasName(q, TagName) && !HasName(q, RefName) && !HasName(q, RefUnderscoreName)
    ensures Others(q) == q
  {
    DeleteAbsent(q, TagName);
    DeleteAbsent(q, RefName);
    DeleteAbsent(q, RefUnderscoreName);
  }

  /** Deleting `ref` and `ref_` around the tag entry, when the entries before
      it hold no `tag`. */
  lemma DeleteRefsAround(pre: seq<Param>, post: seq<Param>)
    requires !HasName(pre, TagName)
    ensures Delete(Delete(pre + [TagParam] + post, RefName), RefUnderscoreName)
         == Others(pre) + [TagParam] + Delete(Delete(post, RefName), RefUnderscoreName)
  {
    assert Delete([TagParam], RefName) == [TagParam];
    assert Delete([TagParam], RefUnderscoreName) == [TagParam];
    var pre1 := Delete(pre, RefName);
    var post1 := Delete(post, RefName);
    DeleteConcat(pre + [TagParam], post, RefName);
    DeleteConcat(pre, [TagParam], RefName);
    DeleteConcat(pre1 + [TagParam], post1, RefUnderscoreName);
    DeleteConcat(pre1, [TagParam], RefUnderscoreName);
    DeleteAbsent(pre, TagName);
  }

  /** Where the rewrite puts the tag when the query has a `tag` entry: at the
      first one, k. The result is the other entries before k, the affiliate
      tag, and the other entries after k; every `ref`, `ref_` and later `tag`
      entry is gone. */
  lemma RewriteAtFirstTag(q: seq<Param>)
    requires HasName(q, TagName)
    ensures var k := FirstIndex(q, TagName);
      Rewrite(q) == Others(q[..k]) + [TagParam] + Others(q[k + 1..])
  {
    var k := FirstIndex(q, TagName);
    NoNameBeforeFirst(q, TagName);
    SetAtFirst(q, TagName, AffiliateTag);
    RewriteAround(q[..k], q[k + 1..]);
  }

  /** The deletions after `set`, on a query whose first `tag` entry has been
      overwritten and whose later ones have been removed. */
  lemma RewriteAround(pre: seq<Param>, post: seq<Param>)
    requires !HasName(pre, TagName)
    ensures Delete(Delete(pre + [TagParam] + Delete(post, TagName), RefName), RefUnderscoreName)
         == Others(pre) + [TagParam] + Others(post)
  {
    DeleteRefsAround(pre, Delete(post, TagName));
  }

  /** Without a `tag` entry the tag goes after all other entries. */
  lemma RewriteAppendsTag(q: seq<Param>)
    requires !HasName(q, TagName)
    ensures Rewrite(q) == Others(q) + [TagParam]
  {
    SetAppends(q, TagName, AffiliateTag);
    assert q + [TagParam] == q + [TagParam] + [];
    DeleteRefsAround(q, []);
  }

  /** A query without `tag`, `ref` and `ref_` entries. */
  predicate Clean(q: seq<Param>) {
    !HasName(q, TagName) && !HasName(q, RefName) && !HasName(q, RefUnderscoreName)
  }

  /** The count facts of a clean query with the tag entry inserted. */
  lemma TagBetweenCount(a: seq<Param>, b: seq<Param>)
    requires Clean(a) && Clean(b)
    ensures CountName(a + [TagParam] + b, TagName) == 1
    ensures forall i :: 0 <= i < |a + [TagParam] + b| && (a + [TagParam] + b)[i].name == TagName
              ==> (a + [TagParam] + b)[i] == TagParam
  {
    var r := a + [TagParam] + b;
    NoNameCountZero(a, TagName);
    NoNameCountZero(b, TagName);
    CountConcat(a + [TagParam], b, TagName);
    CountConcat(a, [TagParam], TagName);
  }

  /** The name facts of a clean query with the tag entry inserted. */
  lemma TagBetweenNames(a: seq<Param>, b: seq<Param>)
    requires Clean(a) && Clean(b)
    ensures !HasName(a + [TagParam] + b, RefName) && !HasName(a + [TagParam] + b, RefUnderscoreName)
    ensures Others(a + [TagParam] + b) == a + b
  {
    HasNameConcat(a + [TagParam], b, RefName);
    HasNameConcat(a, [TagParam], RefName);
    HasNameConcat(a + [TagParam], b, RefUnderscoreName);
    HasNameConcat(a, [TagParam], RefUnderscoreName);
    OthersConcat(a + [TagParam], b);
    OthersConcat(a, [TagParam]);
    OthersFixes(a);
    OthersFixes(b);
    assert Others([TagParam]) == [];
  }

  /** Removing one `tag` entry does not change the other entries. */
  lemma OthersSkipsTag(q: seq<Param>, k: int)
    requires 0 <= k < |q| && q[k].name == TagName
    ensures Others(q) == Others(q[..k]) + Others(q[k + 1..])
  {
    SplitAt(q, k);
    OthersConcat(q[..k] + [q[k]], q[k + 1..]);
    OthersConcat(q[..k], [q[k]]);
    assert Others([q[k]]) == [];
  }

  /** The rewritten query holds exactly one `tag` entry, valued with the
      affiliate tag, no `ref` or `ref_` entry, and every other entry of the
      original in the original order. */
  lemma RewriteTagsOnce(q: seq<Param>)
    ensures CountName(Rewrite(q), TagName) == 1
    ensures forall i :: 0 <= i < |Rewrite(q)| && Rewrite(q)[i].name == TagName ==> Rewrite(q)[i] == TagParam
    ensures !HasName(Rewrite(q), RefName) && !HasName(Rewrite(q), RefUnderscoreName)
    ensures Others(Rewrite(q)) == Others(q)
  {
    var k := FirstIndex(q, TagName);
    if k < |q| {
      RewriteAtFirstTag(q);
      TagBetweenCount(Others(q[..k]), Others(q[k + 1..]));
      TagBetweenNames(Others(q[..k]), Others(q[k + 1..]));
      OthersSkipsTag(q, k);
    } else {
      RewriteAppendsTag(q);
      assert Others(q) + [TagParam] == Others(q) + [TagParam] + [];
      TagBetweenCount(Others(q), []);
      TagBetweenNames(Others(q), []);
      assert Others(q) + [] == Others(q);
    }
  }

  /** Every rewritten query is a clean query with the tag entry inserted. */
  lemma RewriteShape(q: seq<Param>) returns (a: seq<Param>, b: seq<Param>)
    ensures Clean(a) && Clean(b) && Rewrite(q) == a + [TagParam] + b
  {
    var k := FirstIndex(q, TagName);
    if k < |q| {
      RewriteAtFirstTag(q);
      a, b := Others(q[..k]), Others(q[k + 1..]);
    } else {
      RewriteAppendsTag(q);
      a, b := Others(q), [];
      assert Others(q) + [TagParam] == a + [TagParam] + b;
    }
  }

  /** In a clean query with the tag entry inserted, that entry is the first
      `tag` entry. */
  lemma FirstTagBetween(a: seq<Param>, b: seq<Param>)
    requires Clean(a)
    ensures FirstIndex(a + [TagParam] + b, TagName) == |a|
  {
    var r := a + [TagParam] + b;
    assert r[|a|] == TagParam;
    assert r[..|a|] == a;
    FirstIndexAt(r, TagName, |a|);
  }

  /** The rewrite leaves a clean query with the tag entry inserted alone. */
  lemma RewriteFixesTagBetween(a: seq<Param>, b: seq<Param>)
    requires Clean(a) && Clean(b)
    ensures Rewrite(a + [TagParam] + b) == a + [TagParam] + b
  {
    var r := a + [TagParam] + b;
    FirstTagBetween(a, b);
    RewriteAtFirstTag(r);
    assert r[..|a|] == a;
    assert r[|a| + 1..] == b;
    OthersFixes(a);
    OthersFixes(b);
  }

  /** Rewriting a rewritten query changes nothing. */
  lemma RewriteIdempotent(q: seq<Param>)
    ensures Rewrite(Rewrite(q)) == Rewrite(q)
  {
    var a, b := RewriteShape(q);
    RewriteFixesTagBetween(a, b);
  }

  /** What `generateLink` hands to the shortener (`cleanUrl`), or why it
      stops before calling it. */
  function CleanUrl(input: string, parse: string -> Option<Url>, serialize: Url -> string): Result<string, Failure> {
    match Canonicalize(input, parse)
    case Failure(f) => Failure(f)
    case Success(c) => Success(LinkText(c, serialize))
  }

  /** With an ASIN the link handed to the shortener is exactly
      `https://{hostname}/dp/{asin}?tag=pariasabet09-20`; it depends on the
      hostname and the ASIN alone, not on the scheme typed, the query, the
      fragment or the rest of the path, nor on how URLs serialize. */
  lemma AsinOutputIgnoresRest(in1: string, in2: string, parse: string -> Option<Url>,
                              ser1: Url -> string, ser2: Url -> string)
    requires Canonicalize(in1, parse).Success? && Canonicalize(in2, parse).Success?
    requires ParseInput(in1, parse).value.hostname == ParseInput(in2, parse).value.hostname
    requires Asin.Extract(ParseInput(in1, parse).value.pathname).Some?
    requires Asin.Extract(ParseInput(in1, parse).value.pathname) == Asin.Extract(ParseInput(in2, parse).value.pathname)
    ensures LinkText(Canonicalize(in1, parse).value, ser1) == LinkText(Canonicalize(in2, parse).value, ser2)
    ensures LinkText(Canonicalize(in1, parse).value, ser1)
         == "https://" + ParseInput(in1, parse).value.hostname + "/dp/"
            + Asin.Extract(ParseInput(in1, parse).value.pathname).value + "?tag=" + AffiliateTag
  {
    var h := ParseInput(in1, parse).value.hostname;
    var a := Asin.Extract(ParseInput(in1, parse).value.pathname).value;
    assert Canonicalize(in1, parse) == Success(AsinLink(h, a));
    assert Canonicalize(in2, parse) == Success(AsinLink(h, a));
  }

  /** Text that already starts with `http://` or `https://` and ends in a
      non-blank character is parsed as it stands. */
  lemma SchemedTextParsedAsIs(t: string, parse: string -> Option<Url>)
    requires (StartsWith(t, Http) || StartsWith(t, Https)) && !IsWhitespace(t[|t| - 1])
    ensures !AllWhitespace(t)
    ensures ParseInput(t, parse) == parse(t)
  {
    assert t[0] == t[..4][0];
    ParseUnpadded(t, parse);
  }

  /** The minimal link starts with `https://`, ends with the `?tag=`
      query carrying the affiliate tag, and so has no white space at its
      end. */
  lemma AsinLinkTextShape(host: string, asin: string)
    ensures var t := AsinLinkText(host, asin);
      && StartsWith(t, Https)
      && |t| >= |TagQuery + AffiliateTag| && t[|t| - |TagQuery + AffiliateTag|..] == TagQuery + AffiliateTag
      && !IsWhitespace(t[|t| - 1])
  {
    var t := AsinLinkText(host, asin);
    assert t[..|Https|] == Https;
    assert t[|t| - |TagQuery + AffiliateTag|..] == TagQuery + AffiliateTag;
    assert t[|t| - 1] == AffiliateTag[|AffiliateTag| - 1];
  }

  /** A minimal ASIN link is a fixed point: fed back in (and parsed the way a
      URL parser parses it), it canonicalises to itself. */
  lemma AsinLinkIsFixpoint(host: string, asin: string, parse: string -> Option<Url>, serialize: Url -> string)
    requires Asin.IsAsin(asin) && Contains(host, RetailerMarker)
    requires parse(AsinLinkText(host, asin)).Some?
    requires parse(AsinLinkText(host, asin)).value.hostname == host
    requires parse(AsinLinkText(host, asin)).value.pathname == Asin.DpMarker + asin
    ensures Canonicalize(AsinLinkText(host, asin), parse) == Success(AsinLink(host, asin))
    ensures LinkText(Canonicalize(AsinLinkText(host, asin), parse).value, serialize) == AsinLinkText(host, asin)
  {
    var t := AsinLinkText(host, asin);
    AsinLinkTextShape(host, asin);
    SchemedTextParsedAsIs(t, parse);
    Asin.DpPathYieldsAsin(asin, []);
    assert Asin.DpMarker + asin + [] == Asin.DpMarker + asin;
  }

  /** A rewritten URL is a fixed point too: when its serialization parses
      back to it, canonicalising that text gives the same URL, so the tag is
      not duplicated and nothing else moves. */
  lemma TaggedUrlIsFixpoint(input: string, parse: string -> Option<Url>, serialize: Url -> string)
    requires Canonicalize(input, parse).Success? && Canonicalize(input, parse).value.Tagged?
    requires var t := serialize(Canonicalize(input, parse).value.url);
      && parse(t) == Some(Canonicalize(input, parse).value.url)
      && (StartsWith(t, Http) || StartsWith(t, Https)) && !IsWhitespace(t[|t| - 1])
    ensures var t := serialize(Canonicalize(input, parse).value.url);
      Canonicalize(t, parse) == Canonicalize(input, parse)
  {
    var v := Canonicalize(input, parse).value.url;
    var u := ParseInput(input, parse).value;
    SchemedTextParsedAsIs(serialize(v), parse);
    RewriteIdempotent(u.query);
    assert RewriteUrl(v) == v;
  }
}

=== FILE: pipeline.dfy ===
/** The component as it is wired: the reducer of `Ui` with the canonicaliser
    of `Canonical` plugged in as its `clean` step, for a given URL parser and
    serializer. */
module Pipeline {
  import opened Wrappers
  import opened Urls
  import opened Canonical
  import opened Shortener
  import opened Ui
  import Asin

  /** The `clean` step `generateLink` performs with the given parser and
      serializer. */
  function Cleaner(parse: string -> Option<Url>, serialize: Url -> string): string -> Result<string, Failure> {
    input => CleanUrl(input, parse, serialize)
  }

  /** Generating on input the canonicaliser refuses shows the refusal's
      message, no link, and never calls the shortener. */
  lemma RefusalShowsMessage(s: UiState, resp: Response, parse: string -> Option<Url>, serialize: Url -> string)
    requires Valid(s) && !s.loading && Canonicalize(s.inputUrl, parse).Failure?
    ensures var t := Step(s, ClickGenerate, Cleaner(parse, serialize));
      && t.error == Message(Canonicalize(s.inputUrl, parse).error)
      && t.generatedLink == "" && !t.loading
      && Step(t, Resolve(resp), Cleaner(parse, serialize)) == t
  {
    var f := Canonicalize(s.inputUrl, parse).error;
    assert Cleaner(parse, serialize)(s.inputUrl) == Failure(f);
    FailureNeverShortens(s, f, resp, Cleaner(parse, serialize));
  }

  /** From any state that is not loading, typing an input with an ASIN,
      generating, and a shortening call that fails shows exactly
      `https://{host}/dp/{asin}?tag=pariasabet09-20`. */
  lemma ShortenerDownShowsMinimalLink(s: UiState, input: string, host: string, asin: string, resp: Response,
                                      parse: string -> Option<Url>, serialize: Url -> string)
    requires Valid(s) && !s.loading
    requires Canonicalize(input, parse) == Success(AsinLink(host, asin)) && !resp.Ok?
    ensures Run(s, [Edit(input), ClickGenerate, Resolve(resp)], Cleaner(parse, serialize)).generatedLink
         == Https + host + Asin.DpMarker + asin + TagQuery + AffiliateTag
  {
    assert Cleaner(parse, serialize)(input) == Success(AsinLinkText(host, asin));
    FailedShorteningShowsCleanLink(s, input, resp, Cleaner(parse, serialize));
  }

  /** When the shortener answers, the link shown is its answer, whatever the
      canonicaliser produced. */
  lemma ShortenerUpShowsShortLink(s: UiState, body: string, parse: string -> Option<Url>, serialize: Url -> string)
    requires !s.loading && Canonicalize(s.inputUrl, parse).Success?
    ensures var t := Step(s, ClickGenerate, Cleaner(parse, serialize));
      var u := Step(t, Resolve(Ok(body)), Cleaner(parse, serialize));
      && t.loading && u.generatedLink == body && u.error == "" && !u.loading
  {
    assert Cleaner(parse, serialize)(s.inputUrl).Success?;
    SuccessShowsShortLink(s, Ok(body), Cleaner(parse, serialize));
  }
}

=== FILE: scenarios.dfy ===
/** Worked examples stated as lemmas about the model. Each one states how
    the URL parser is assumed to parse the scheme-defaulted input; nothing
    else about the parser is assumed. */
module Scenarios {
  import opened Wrappers
  import opened Text
  import opened Urls
  import opened Canonical
  import opened Shortener
  import opened Ui
  import Asin
  import Pipeline

  /** The ASIN in a long product path is found after the leading product
      slug, and the trailing `/ref=...` segment is ignored. */
  lemma LongProductPathAsin()
    ensures Asin.Extract("/Some-Product" + "/dp/" + "B012345678" + "/ref=sr_1_1") == Some("B012345678")
  {
    var slug := "Some-Product";
    assert "/Some-Product" == "/" + slug;
    assert '/' !in slug by {
      assert slug == ['S', 'o', 'm', 'e', '-', 'P', 'r', 'o', 'd', 'u', 'c', 't'];
    }
    Asin.SlugHoldsNoMatch(slug, Asin.DpMarker + "B012345678" + "/ref=sr_1_1");
    assert "/" + slug + (Asin.DpMarker + "B012345678" + "/ref=sr_1_1")
        == "/Some-Product" + Asin.DpMarker + "B012345678" + "/ref=sr_1_1";
    Asin.DpAfterPrefix("/Some-Product", "B012345678", "/ref=sr_1_1");
  }

  /** The product path of the short-domain example yields its ASIN. */
  lemma SampleDpPathAsin()
    ensures Asin.Extract(Asin.DpMarker + "B08N5WRWNW") == Some("B08N5WRWNW")
  {
    Asin.DpPathYieldsAsin("B08N5WRWNW", []);
    assert Asin.DpMarker + "B08N5WRWNW" + [] == Asin.DpMarker + "B08N5WRWNW";
  }

  /** Input typed without a scheme: it starts with neither `http://` nor
      `https://` and has no white space at either end. */
  predicate BareInput(input: string) {
    && |input| > 0 && !(StartsWith(input, Http) || StartsWith(input, Https))
    && !IsWhitespace(input[0]) && !IsWhitespace(input[|input| - 1])
  }

  /** Such input is parsed with `https://` in front. */
  lemma BareInputGetsScheme(input: string, parse: string -> Option<Url>)
    requires BareInput(input)
    ensures !AllWhitespace(input)
    ensures ParseInput(input, parse) == parse(Https + input)
  {
    ParseUnpadded(input, parse);
  }

  /** Bare input on an Amazon host whose path carries an ASIN gives the
      minimal link for that host and ASIN. */
  lemma BareAmazonInputGivesAsinLink(input: string, host: string, asin: string, parse: string -> Option<Url>)
    requires BareInput(input) && Contains(host, RetailerMarker)
    requires parse(Https + input).Some? && parse(Https + input).value.hostname == host
    requires Asin.Extract(parse(Https + input).value.pathname) == Some(asin)
    ensures Canonicalize(input, parse) == Success(AsinLink(host, asin))
  {
    BareInputGetsScheme(input, parse);
  }

  /** The sample input is typed without a scheme. */
  lemma SampleIsBare()
    ensures BareInput("amazon.com/dp/B08N5WRWNW?ref=xyz")
  {
    var input := "amazon.com/dp/B08N5WRWNW?ref=xyz";
    assert input[0] == 'a' && input[|input| - 1] == 'z';
    assert input[..|Http|][0] == 'a' && input[..|Https|][0] == 'a';
  }

  /** `amazon.com` holds the retailer marker at its start. */
  lemma AmazonComIsRetailer()
    ensures Contains("amazon.com", RetailerMarker)
  {
    assert "amazon.com"[..6] == RetailerMarker;
  }

  /** `amazon.com/dp/B08N5WRWNW?ref=xyz` canonicalises to the minimal link
      for ASIN B08N5WRWNW on amazon.com; the `ref` entry plays no part. */
  lemma ShortDomainInputCanonical(parse: string -> Option<Url>)
    requires parse(Https + "amazon.com/dp/B08N5WRWNW?ref=xyz")
          == Some(Url("https:", "amazon.com", "", Asin.DpMarker + "B08N5WRWNW", [Param("ref", "xyz")], ""))
    ensures Canonicalize("amazon.com/dp/B08N5WRWNW?ref=xyz", parse) == Success(AsinLink("amazon.com", "B08N5WRWNW"))
  {
    SampleIsBare();
    AmazonComIsRetailer();
    SampleDpPathAsin();
    BareAmazonInputGivesAsinLink("amazon.com/dp/B08N5WRWNW?ref=xyz", "amazon.com", "B08N5WRWNW", parse);
  }

  /** Generating on empty or all-blank input answers "Enter URL" whatever
      the parser does, from any state that is not already loading. */
  lemma EmptyInputAsksForUrl(s: UiState, parse: string -> Option<Url>, serialize: Url -> string)
    requires !s.loading && AllWhitespace(s.inputUrl)
    ensures Step(s, ClickGenerate, Pipeline.Cleaner(parse, serialize)).error == "Enter URL"
  {
  }

  /** Input the parser rejects fails as malformed, shown as "Invalid URL". */
  lemma UnparsableInputIsInvalid(parse: string -> Option<Url>)
    requires parse(Https + "not a url") == None
    ensures Canonicalize("not a url", parse) == Failure(MalformedUrl)
    ensures Message(MalformedUrl) == "Invalid URL"
  {
    var input := "not a url";
    assert input[0] == 'n' && input[|input| - 1] == 'l';
    assert input[..|Http|][0] == 'n';
    BareInputGetsScheme(input, parse);
  }

  /** `google.com` lacks the retailer marker: it has no `a` at all. */
  lemma GoogleIsForeign()
    ensures !Contains("google.com", RetailerMarker)
  {
    var h := "google.com";
    assert h == ['g', 'o', 'o', 'g', 'l', 'e', '.', 'c', 'o', 'm'];
    MissingFirstCharNotContained(h, RetailerMarker);
  }

  /** Any `http://` or `https://` input, unpadded at its end, whose parsed
      hostname lacks the retailer marker is refused as not Amazon, whatever
      its path, query or fragment. */
  lemma SchemedForeignHostRefused(input: string, parse: string -> Option<Url>)
    requires (StartsWith(input, Http) || StartsWith(input, Https)) && !IsWhitespace(input[|input| - 1])
    requires parse(input).Some? && !Contains(parse(input).value.hostname, RetailerMarker)
    ensures Canonicalize(input, parse) == Failure(NotAmazon)
  {
    SchemedTextParsedAsIs(input, parse);
  }

  /** `https://google.com` fails as not Amazon. */
  lemma OtherRetailerIsRefused(parse: string -> Option<Url>)
    requires parse(Https + "google.com").Some? && parse(Https + "google.com").value.hostname == "google.com"
    ensures Canonicalize(Https + "google.com", parse) == Failure(NotAmazon)
  {
    GoogleIsForeign();
    GoogleInputSchemed();
    SchemedForeignHostRefused(Https + "google.com", parse);
  }

  /** `https://google.com` carries a scheme and ends in a non-blank
      character. */
  lemma GoogleInputSchemed()
    ensures var input := Https + "google.com";
      StartsWith(input, Https) && !IsWhitespace(input[|input| - 1])
  {
    var input := Https + "google.com";
    assert input[..|Https|] == Https;
    assert input[|input| - 1] == 'm';
  }
}

=== FILE: shortener.dfy ===
/** The fail-open rule of `shortenUrl`: one request to the shortening
    service, whose outcome is reduced to the three cases the code tells
    apart. The request itself (fetch, percent-encoding of the argument, the
    error log) is not modelled. */
module Shortener {

  /** What the request came to: a response with an ok status whose body was
      read, a response with any other status, or an exception (network
      failure, or a failure reading the body). */
  datatype Response = Ok(body: string) | NotOk | Threw

  /** The link `shortenUrl` resolves to for the given clean link. */
  function Shorten(url: string, resp: Response): (r: string)
    ensures resp.Ok? ==> r == resp.body
    ensures !resp.Ok? ==> r == url
  {
    match resp
    case Ok(body) => body
    case NotOk => url
    case Threw => url
  }
}

=== FILE: text.dfy ===
/** The string primitives of ECMAScript that the link generator relies on:
    `String.prototype.trim`, `String.prototype.startsWith` and
    `String.prototype.includes` of ECMA-262. Strings are sequences of characters;
    the model does not distinguish UTF-16 code units from scalar values. */
module Text {

  /** The WhiteSpace and LineTerminator code points of ECMA-262, the set
      `trim` removes: TAB, VT, FF, ZWNBSP, the Unicode space
      separators (category Zs) and LF, CR, LS, PS. */
  predicate IsWhitespace(c: char) {
    || c == '\t' || c == '\U{000B}' || c == '\U{000C}' || c == '\U{FEFF}'
    || c == ' ' || c == '\U{00A0}' || c == '\U{1680}'
    || ('\U{2000}' <= c <= '\U{200A}')
    || c == '\U{202F}' || c == '\U{205F}' || c == '\U{3000}'
    || c == '\n' || c == '\r' || c == '\U{2028}' || c == '\U{2029}'
  }

  predicate AllWhitespace(s: string) {
    forall i :: 0 <= i < |s| ==> IsWhitespace(s[i])
  }

  /** Drops leading white space. */
  function TrimStart(s: string): (r: string)
    ensures |r| <= |s| && r == s[|s| - |r|..]
    ensures AllWhitespace(s[..|s| - |r|])
    ensures |r| > 0 ==> !IsWhitespace(r[0])
  {
    if |s| > 0 && IsWhitespace(s[0]) then
      var r := TrimStart(s[1..]);
      assert s[1..][..|s| - 1 - |r|] == s[1..|s| - |r|];
      r
    else
      s
  }

  /** Drops trailing white space. */
  function TrimEnd(s: string): (r: string)
    ensures |r| <= |s| && r == s[..|r|]
    ensures AllWhitespace(s[|r|..])
    ensures |r| > 0 ==> !IsWhitespace(r[|r| - 1])
  {
    if |s| > 0 && IsWhitespace(s[|s| - 1]) then
      var r := TrimEnd(s[..|s| - 1]);
      assert s[..|s| - 1][|r|..] == s[|r|..|s| - 1];
      r
    else
      s
  }

  /** `String.prototype.trim`: the input with white space removed at both ends;
      what remains neither starts nor ends with white space. */
  function Trim(s: string): (r: string)
    ensures |r| <= |s|
    ensures |r| > 0 ==> !IsWhitespace(r[0]) && !IsWhitespace(r[|r| - 1])
  {
    TrimEnd(TrimStart(s))
  }

  /** What `trim` keeps is one slice s[a..b] of the input, and everything
      outside the slice is white space. */
  lemma TrimIsSlice(s: string) returns (a: nat, b: nat)
    ensures a <= b <= |s| && Trim(s) == s[a..b]
    ensures AllWhitespace(s[..a]) && AllWhitespace(s[b..])
  {
    var t := TrimStart(s);
    var r := TrimEnd(t);
    a := |s| - |t|;
    b := a + |r|;
    assert r == s[a..b];
    assert s[b..] == t[|r|..];
  }

  /** Text that neither starts nor ends with white space is left alone. */
  lemma TrimKeepsUnpadded(s: string)
    requires |s| > 0 && !IsWhitespace(s[0]) && !IsWhitespace(s[|s| - 1])
    ensures Trim(s) == s
  {
    assert TrimStart(s) == s;
  }

  /** Trimming leaves nothing exactly when the input is all white space, which
      is when the generator answers "Enter URL". */
  lemma TrimEmptyIff(s: string)
    ensures Trim(s) == [] <==> AllWhitespace(s)
  {
    var r := Trim(s);
    var a, b := TrimIsSlice(s);
    if r == [] {
      forall i | 0 <= i < |s| ensures IsWhitespace(s[i]) {
        if i < a { assert s[..a][i] == s[i]; } else { assert s[b..][i - b] == s[i]; }
      }
    }
  }

  /** Trimming twice is trimming once. */
  lemma TrimIdempotent(s: string)
    ensures Trim(Trim(s)) == Trim(s)
  {
    var r := Trim(s);
    if |r| > 0 {
      assert TrimStart(r) == r;
      assert TrimEnd(r) == r;
    }
  }

  /** `startsWith`: p is a prefix of s. */
  predicate StartsWith(s: string, p: string) {
    |p| <= |s| && s[..|p|] == p
  }

  /** t occurs in s starting at offset i. */
  predicate OccursAt(s: string, t: string, i: int) {
    0 <= i <= |s| - |t| && s[i..i + |t|] == t
  }

  /** `includes`, as a left-to-right search for t in s. */
  predicate Contains(s: string, t: string)
    decreases |s|
  {
    |t| <= |s| && (s[..|t|] == t || Contains(s[1..], t))
  }

  /** The search agrees with the declarative meaning of `includes`: t occurs in
      s at some offset. */
  lemma {:induction false} ContainsIff(s: string, t: string)
    ensures Contains(s, t) <==> exists i :: OccursAt(s, t, i)
    decreases |s|
  {
    if |t| <= |s| && s[..|t|] == t {
      assert OccursAt(s, t, 0);
    } else if |t| <= |s| {
      ContainsIff(s[1..], t);
      if Contains(s[1..], t) {
        var i :| OccursAt(s[1..], t, i);
        assert s[1..][i..i + |t|] == s[i + 1..i + 1 + |t|];
        assert OccursAt(s, t, i + 1);
      } else if i :| OccursAt(s, t, i) {
        assert i != 0;
        assert s[1..][i - 1..i - 1 + |t|] == s[i..i + |t|];
        assert OccursAt(s[1..], t, i - 1);
      }
    }
  }

  /** Text that lacks the first character of t does not contain t. */
  lemma {:induction false} MissingFirstCharNotContained(s: string, t: string)
    requires |t| > 0 && forall i :: 0 <= i < |s| ==> s[i] != t[0]
    ensures !Contains(s, t)
    decreases |s|
  {
    if |t| <= |s| {
      assert s[..|t|][0] == s[0];
      MissingFirstCharNotContained(s[1..], t);
    }
  }

  /** One character of the regular-expression class `[a-zA-Z0-9]`. */
  predicate IsAsciiAlnum(c: char) {
    ('a' <= c <= 'z') || ('A' <= c <= 'Z') || ('0' <= c <= '9')
  }

  predicate AllAsciiAlnum(s: string) {
    forall i :: 0 <= i < |s| ==> IsAsciiAlnum(s[i])
  }
}

=== FILE: ui.dfy ===
/** The component's state and its updates, recast as a reducer. The five
    `useState` cells become one record; each user event, the resolution of
    the awaited shortening call and the expiry of the "Copied!" timer become
    actions. `generateLink` suspends once, at the call to the shortener, so it
    is split into a start step (everything before the `await`) and a resolve
    step (everything after it). The reducer sees the canonicaliser only
    through `clean`, the text handed to the shortener or the reason for
    stopping; the component itself uses `Canonical.CleanUrl` with the
    browser's URL parser and serializer. */
module Ui {
  import opened Wrappers
  import opened Canonical
  import opened Shortener

  /** The component state. `pending` is not a React state cell: it is the
      clean link captured by the suspended `generateLink` call while it waits
      for the shortener, None when no call is suspended. */
  datatype UiState = UiState(
    inputUrl: string,
    generatedLink: string,
    error: string,
    copied: bool,
    loading: bool,
    pending: Option<string>)

  /** Every `useState` starts empty or false. */
  const Initial: UiState := UiState("", "", "", false, false, None)

  /** What can happen to the component: the text box changes, a key is
      pressed in it, the generate button is clicked, the shortening call
      resolves, the copy button is clicked, the copy timer fires. */
  datatype Action =
    | Edit(text: string)
    | KeyDown(key: string)
    | ClickGenerate
    | Resolve(resp: Response)
    | ClickCopy
    | CopyTimerFired

  /** `generateLink` up to its `await`: clear the error, the link and the copy
      flag, raise `loading`, then canonicalise. A failure shows its message
      and lowers `loading`; a success suspends on the shortener. */
  function StartGenerate(s: UiState, clean: string -> Result<string, Failure>): (t: UiState)
    ensures t.inputUrl == s.inputUrl && t.generatedLink == "" && !t.copied
    ensures clean(s.inputUrl).Failure? ==>
              && t.error == Message(clean(s.inputUrl).error)
              && !t.loading && t.pending == s.pending
    ensures clean(s.inputUrl).Success? ==>
              && t.error == "" && t.loading
              && t.pending == Some(clean(s.inputUrl).value)
  {
    var cleared := s.(error := "", generatedLink := "", copied := false, loading := true);
    match clean(s.inputUrl)
    case Failure(f) => cleared.(error := Message(f), loading := false)
    case Success(link) => cleared.(pending := Some(link))
  }

  /** `generateLink` after its `await`: show the shortener's answer and lower
      `loading`. With no suspended call there is nothing to resume. */
  function FinishGenerate(s: UiState, resp: Response): (t: UiState)
    ensures s.pending.None? ==> t == s
    ensures s.pending.Some? ==>
              && t.generatedLink == Shorten(s.pending.value, resp)
              && !t.loading && t.pending.None?
              && t.inputUrl == s.inputUrl && t.error == s.error && t.copied == s.copied
  {
    match s.pending
    case None => s
    case Some(link) => s.(generatedLink := Shorten(link, resp), loading := false, pending := None)
  }

  /** `copyToClipboard`: nothing without a link, otherwise raise the copy
      flag (the clipboard write is not modelled). */
  function CopyLink(s: UiState): (t: UiState)
    ensures s.generatedLink == "" ==> t == s
    ensures s.generatedLink != "" ==> t.copied && t == s.(copied := true)
  {
    if s.generatedLink == "" then s else s.(copied := true)
  }

  /** One reducer step. Enter starts a run only while `loading` is false, and
      the generate button is disabled while `loading` is true. */
  function Step(s: UiState, a: Action, clean: string -> Result<string, Failure>): UiState {
    match a
    case Edit(text) => s.(inputUrl := text)
    case KeyDown(key) => if key == "Enter" && !s.loading then StartGenerate(s, clean) else s
    case ClickGenerate => if s.loading then s else StartGenerate(s, clean)
    case Resolve(resp) => FinishGenerate(s, resp)
    case ClickCopy => CopyLink(s)
    case CopyTimerFired => s.(copied := false)
  }

  /** The state after a sequence of actions. */
  function Run(s: UiState, actions: seq<Action>, clean: string -> Result<string, Failure>): UiState
    decreases |actions|
  {
    if |actions| == 0 then s
    else Run(Step(s, actions[0], clean), actions[1..], clean)
  }

  /** The error field holds nothing or one of the three messages. */
  predicate KnownError(e: string) {
    e == "" || e == Message(EmptyInput) || e == Message(MalformedUrl) || e == Message(NotAmazon)
  }

  /** What holds in every state the component can reach: a run is in flight
      exactly while `loading` is true, and then nothing is shown; an error and
      a link are never shown together; the copy flag is only up while there
      is a link to copy. */
  predicate Valid(s: UiState) {
    && (s.loading <==> s.pending.Some?)
    && (s.loading ==> s.generatedLink == "" && s.error == "" && !s.copied)
    && (s.error != "" ==> s.generatedLink == "")
    && (s.copied ==> s.generatedLink != "")
    && KnownError(s.error)
  }

  lemma InitialValid()
    ensures Valid(Initial)
  {
  }

  /** Every step keeps the state valid. */
  lemma StepKeepsValid(s: UiState, a: Action, clean: string -> Result<string, Failure>)
    requires Valid(s)
    ensures Valid(Step(s, a, clean))
  {
    match a
    case KeyDown(key) =>
      if key == "Enter" && !s.loading {
        StartKeepsValid(s, clean);
      }
    case ClickGenerate =>
      if !s.loading {
        StartKeepsValid(s, clean);
      }
    case _ =>
  }

  lemma StartKeepsValid(s: UiState, clean: string -> Result<string, Failure>)
    requires Valid(s) && !s.loading
    ensures Valid(StartGenerate(s, clean))
  {
    var r := clean(s.inputUrl);
    if r.Failure? {
      MessagesDistinct(r.error, r.error);
    }
  }

  /** Every state reachable from a valid one is valid. */
  lemma {:induction false} RunKeepsValid(s: UiState, actions: seq<Action>,
                                         clean: string -> Result<string, Failure>)
    requires Valid(s)
    ensures Valid(Run(s, actions, clean))
    decreases |actions|
  {
    if |actions| > 0 {
      StepKeepsValid(s, actions[0], clean);
      RunKeepsValid(Step(s, actions[0], clean), actions[1..], clean);
    }
  }

  /** While a run is in flight neither Enter nor the button starts another
      one, so at most one shortening call is ever pending. */
  lemma NoGenerateWhileLoading(s: UiState, clean: string -> Result<string, Failure>)
    requires s.loading
    ensures Step(s, KeyDown("Enter"), clean) == s
    ensures Step(s, ClickGenerate, clean) == s
  {
  }

  /** A failed canonicalisation shows its message, leaves the link empty,
      lowers `loading` and never reaches the shortener: a later resolution
      has nothing to resume. */
  lemma FailureNeverShortens(s: UiState, f: Failure, resp: Response,
                             clean: string -> Result<string, Failure>)
    requires Valid(s) && !s.loading && clean(s.inputUrl) == Failure(f)
    ensures var t := Step(s, ClickGenerate, clean);
      && t.error == Message(f) && t.generatedLink == "" && !t.copied && !t.loading
      && Step(t, Resolve(resp), clean) == t
  {
    var t := StartGenerate(s, clean);
    assert Step(s, ClickGenerate, clean) == t;
    assert t.pending == None;
    assert Step(t, Resolve(resp), clean) == FinishGenerate(t, resp) == t;
  }

  /** A successful run clears the error and link while it waits, and on
      resolution shows the shortener's answer for the clean link (the clean
      link itself when shortening failed) with `loading` lowered. */
  lemma SuccessShowsShortLink(s: UiState, resp: Response,
                              clean: string -> Result<string, Failure>)
    requires !s.loading && clean(s.inputUrl).Success?
    ensures var link := clean(s.inputUrl).value;
      var t := Step(s, ClickGenerate, clean);
      var u := Step(t, Resolve(resp), clean);
      && t.loading && t.error == "" && t.generatedLink == "" && !t.copied
      && !u.loading && u.error == "" && !u.copied
      && u.generatedLink == (if resp.Ok? then resp.body else link)
  {
    var link := clean(s.inputUrl).value;
    var t := StartGenerate(s, clean);
    assert Step(s, ClickGenerate, clean) == t;
    assert t.pending == Some(link);
    var u := FinishGenerate(t, resp);
    assert Step(t, Resolve(resp), clean) == u;
    assert u.generatedLink == Shorten(link, resp);
  }

  /** From any state that is not loading, typing a link, generating, and a
      shortening call that fails shows the clean link itself, with no error,
      the copy flag cleared and `loading` lowered. */
  lemma FailedShorteningShowsCleanLink(s: UiState, input: string, resp: Response,
                                       clean: string -> Result<string, Failure>)
    requires Valid(s) && !s.loading && clean(input).Success? && !resp.Ok?
    ensures Run(s, [Edit(input), ClickGenerate, Resolve(resp)], clean)
         == s.(inputUrl := input, generatedLink := clean(input).value, error := "", copied := false)
  {
    var actions := [Edit(input), ClickGenerate, Resolve(resp)];
    var link := clean(input).value;
    var s1 := Step(s, Edit(input), clean);
    var s2 := Step(s1, ClickGenerate, clean);
    var s3 := Step(s2, Resolve(resp), clean);
    assert s1 == s.(inputUrl := input);
    assert s2 == s1.(error := "", generatedLink := "", copied := false, loading := true, pending := Some(link));
    assert s3 == s1.(generatedLink := link, error := "", copied := false);
    assert actions[1..] == [ClickGenerate, Resolve(resp)];
    assert [ClickGenerate, Resolve(resp)][1..] == [Resolve(resp)];
    assert Run(s2, [Resolve(resp)], clean) == Run(s3, [], clean) == s3;
    assert Run(s1, [ClickGenerate, Resolve(resp)], clean) == Run(s2, [Resolve(resp)], clean);
    assert Run(s, actions, clean) == Run(s1, [ClickGenerate, Resolve(resp)], clean);
  }
}

=== FILE: url.dfy ===
/** The parsed URL record and the two URLSearchParams mutations the link
    generator uses (WHATWG URL Standard, section 6.2). Parsing and
    serialization are not modelled here: the record is what a parse returns,
    with the query already split into its ordered name/value list. */
module Urls {

  /** One entry of a URL's query list. */
  datatype Param = Param(name: string, value: string)

  /** A parsed URL: the parts the generator reads (hostname, pathname, query
      list) and the parts it only carries through to serialization. */
  datatype Url = Url(
    protocol: string,
    hostname: string,
    port: string,
    pathname: string,
    query: seq<Param>,
    hash: string)

  /** Some entry of q is named `name`. */
  predicate HasName(q: seq<Param>, name: string) {
    exists i :: 0 <= i < |q| && q[i].name == name
  }

  /** The number of entries of q named `name`. */
  function CountName(q: seq<Param>, name: string): nat {
    if |q| == 0 then 0
    else (if q[0].name == name then 1 else 0) + CountName(q[1..], name)
  }

  /** The index of the first entry named `name`, or |q| when there is none. */
  function FirstIndex(q: seq<Param>, name: string): (k: nat)
    ensures k <= |q|
    ensures k < |q| ==> q[k].name == name
    ensures k == |q| <==> !HasName(q, name)
  {
    if |q| == 0 then 0
    else if q[0].name == name then 0
    else 1 + FirstIndex(q[1..], name)
  }

  /** `URLSearchParams.delete(name)`: removes every entry named `name` and
      keeps the others in their order. */
  function Delete(q: seq<Param>, name: string): (r: seq<Param>)
    ensures |r| <= |q|
    ensures !HasName(r, name)
  {
    if |q| == 0 then []
    else if q[0].name == name then Delete(q[1..], name)
    else [q[0]] + Delete(q[1..], name)
  }

  /** `URLSearchParams.set(name, value)`: when an entry named `name` exists,
      the first one takes the new value and the later ones are removed;
      otherwise a new entry is appended. */
  function Set(q: seq<Param>, name: string, value: string): seq<Param> {
    if |q| == 0 then [Param(name, value)]
    else if q[0].name == name then [Param(name, value)] + Delete(q[1..], name)
    else [q[0]] + Set(q[1..], name, value)
  }

  /** Deletion adds no entry, so a name absent before stays absent. */
  lemma {:induction false} DeleteKeepsAbsent(q: seq<Param>, name: string, other: string)
    requires !HasName(q, other)
    ensures !HasName(Delete(q, name), other)
  {
    DeleteMembers(q, name);
  }

  /** Deletion keeps exactly the entries with another name. */
  lemma {:induction false} DeleteMembers(q: seq<Param>, name: string)
    ensures forall p :: p in Delete(q, name) <==> p in q && p.name != name
  {
    if |q| > 0 {
      DeleteMembers(q[1..], name);
      assert q == [q[0]] + q[1..];
    }
  }

  lemma {:induction false} NoNameCountZero(q: seq<Param>, name: string)
    requires !HasName(q, name)
    ensures CountName(q, name) == 0
  {
    if |q| > 0 {
      assert !HasName(q[1..], name) by {
        forall i | 0 <= i < |q| - 1 ensures q[1..][i].name != name {
          assert q[1..][i] == q[i + 1];
        }
      }
      NoNameCountZero(q[1..], name);
    }
  }

  /** Deleting a name that does not occur changes nothing. */
  lemma {:induction false} DeleteAbsent(q: seq<Param>, name: string)
    requires !HasName(q, name)
    ensures Delete(q, name) == q
  {
    if |q| > 0 {
      assert q[0].name != name;
      assert !HasName(q[1..], name) by {
        forall i | 0 <= i < |q| - 1 ensures q[1..][i].name != name {
          assert q[1..][i] == q[i + 1];
        }
      }
      DeleteAbsent(q[1..], name);
      assert q == [q[0]] + q[1..];
    }
  }

  /** Deletion works entry by entry, so it preserves the relative order of
      what it keeps: deleting from a concatenation concatenates the results. */
  lemma {:induction false} DeleteConcat(a: seq<Param>, b: seq<Param>, name: string)
    ensures Delete(a + b, name) == Delete(a, name) + Delete(b, name)
  {
    if |a| > 0 {
      assert (a + b)[1..] == a[1..] + b;
      DeleteConcat(a[1..], b, name);
    } else {
      assert a + b == b;
    }
  }

  /** Deleting one name and then another is independent of the order. */
  lemma {:induction false} DeleteCommute(q: seq<Param>, m: string, n: string)
    ensures Delete(Delete(q, m), n) == Delete(Delete(q, n), m)
  {
    if |q| > 0 {
      DeleteCommute(q[1..], m, n);
    }
  }

  /** An entry with another name in front passes through `set`. */
  lemma SetCons(x: Param, t: seq<Param>, name: string, value: string)
    requires x.name != name
    ensures Set([x] + t, name, value) == [x] + Set(t, name, value)
  {
    assert ([x] + t)[1..] == t;
  }

  /** Entries before the first `name` entry pass through `set` untouched. */
  lemma {:induction false} SetAfterPrefix(pre: seq<Param>, rest: seq<Param>, name: string, value: string)
    requires !HasName(pre, name)
    ensures Set(pre + rest, name, value) == pre + Set(rest, name, value)
  {
    if |pre| == 0 {
      assert pre + rest == rest;
    } else {
      var t := pre[1..];
      assert !HasName(t, name) by {
        forall i | 0 <= i < |t| ensures t[i].name != name {
          assert t[i] == pre[i + 1];
        }
      }
      SetAfterPrefix(t, rest, name, value);
      assert pre + rest == [pre[0]] + (t + rest);
      SetCons(pre[0], t + rest, name, value);
      assert pre == [pre[0]] + t;
    }
  }

  /** When an entry named `name` exists, `set` writes at the first one; the
      entries before it are untouched and later duplicates are removed. */
  lemma SetAtFirst(q: seq<Param>, name: string, value: string)
    requires HasName(q, name)
    ensures var k := FirstIndex(q, name);
      Set(q, name, value) == q[..k] + [Param(name, value)] + Delete(q[k + 1..], name)
  {
    var k := FirstIndex(q, name);
    var pre, rest := q[..k], q[k..];
    TakeDrop(q, k);
    NoNameBeforeFirst(q, name);
    SetAfterPrefix(pre, rest, name, value);
    assert rest[0] == q[k] && rest[1..] == q[k + 1..];
    assert Set(rest, name, value) == [Param(name, value)] + Delete(q[k + 1..], name);
    AppendAssoc(pre, [Param(name, value)], Delete(q[k + 1..], name));
  }

  /** When no entry is named `name`, `set` appends one at the end. */
  lemma {:induction false} SetAppends(q: seq<Param>, name: string, value: string)
    requires !HasName(q, name)
    ensures Set(q, name, value) == q + [Param(name, value)]
  {
    if |q| > 0 {
      var t := q[1..];
      assert !HasName(t, name) by {
        forall i | 0 <= i < |t| ensures t[i].name != name {
          assert t[i] == q[i + 1];
        }
      }
      SetAppends(t, name, value);
      assert q == [q[0]] + t;
    }
  }

  lemma {:induction false} CountConcat(a: seq<Param>, b: seq<Param>, name: string)
    ensures CountName(a + b, name) == CountName(a, name) + CountName(b, name)
  {
    if |a| > 0 {
      assert (a + b)[1..] == a[1..] + b;
      CountConcat(a[1..], b, name);
    } else {
      assert a + b == b;
    }
  }

  lemma HasNameConcat(a: seq<Param>, b: seq<Param>, name: string)
    ensures HasName(a + b, name) <==> HasName(a, name) || HasName(b, name)
  {
    if HasName(a + b, name) {
      var i :| 0 <= i < |a + b| && (a + b)[i].name == name;
      if i >= |a| {
        assert b[i - |a|] == (a + b)[i];
      }
    }
    if HasName(a, name) {
      var i :| 0 <= i < |a| && a[i].name == name;
      assert (a + b)[i] == a[i];
    }
    if HasName(b, name) {
      var i :| 0 <= i < |b| && b[i].name == name;
      assert (a + b)[|a| + i] == b[i];
    }
  }

  /** After `set` exactly one entry carries the name. */
  lemma SetCountsOnce(q: seq<Param>, name: string, value: string)
    ensures CountName(Set(q, name, value), name) == 1
  {
    var p := Param(name, value);
    assert CountName([p], name) == 1;
    if HasName(q, name) {
      var k := FirstIndex(q, name);
      var pre, d := q[..k], Delete(q[k + 1..], name);
      SetAtFirst(q, name, value);
      NoNameBeforeFirst(q, name);
      CountConcat(pre + [p], d, name);
      CountConcat(pre, [p], name);
      NoNameCountZero(pre, name);
      NoNameCountZero(d, name);
    } else {
      SetAppends(q, name, value);
      CountConcat(q, [p], name);
      NoNameCountZero(q, name);
    }
  }

  /** After `set` every entry with the name holds the new value. */
  lemma SetValues(q: seq<Param>, name: string, value: string)
    ensures forall i :: 0 <= i < |Set(q, name, value)| && Set(q, name, value)[i].name == name
              ==> Set(q, name, value)[i].value == value
  {
    var r := Set(q, name, value);
    if HasName(q, name) {
      var k := FirstIndex(q, name);
      var d := Delete(q[k + 1..], name);
      SetAtFirst(q, name, value);
      forall i | 0 <= i < |r| ensures r[i].name == name ==> r[i].value == value {
        if i < k {
          assert r[i] == q[i];
        } else if i > k {
          assert r[i] == d[i - k - 1];
        }
      }
    } else {
      SetAppends(q, name, value);
      forall i | 0 <= i < |r| ensures r[i].name == name ==> r[i].value == value {
        if i < |q| {
          assert r[i] == q[i];
        }
      }
    }
  }

  /** Every entry before the first `name` entry has another name. */
  lemma {:induction false} BeforeFirst(q: seq<Param>, name: string, j: int)
    requires 0 <= j < FirstIndex(q, name)
    ensures q[j].name != name
  {
    if j > 0 {
      BeforeFirst(q[1..], name, j - 1);
      assert q[1..][j - 1] == q[j];
    }
  }

  /** The entries before the first `name` entry have other names. */
  lemma NoNameBeforeFirst(q: seq<Param>, name: string)
    ensures !HasName(q[..FirstIndex(q, name)], name)
  {
    var pre := q[..FirstIndex(q, name)];
    forall i | 0 <= i < |pre| ensures pre[i].name != name {
      BeforeFirst(q, name, i);
      assert pre[i] == q[i];
    }
  }

  /** An entry with the name and none before it is the first one. */
  lemma {:induction false} FirstIndexAt(q: seq<Param>, name: string, m: int)
    requires 0 <= m < |q| && q[m].name == name && !HasName(q[..m], name)
    ensures FirstIndex(q, name) == m
  {
    if m > 0 {
      assert q[..m][0] == q[0];
      var t := q[1..];
      var u := t[..m - 1];
      assert !HasName(u, name) by {
        forall i | 0 <= i < |u| ensures u[i].name != name {
          assert u[i] == q[..m][i + 1];
        }
      }
      assert t[m - 1] == q[m];
      FirstIndexAt(t, name, m - 1);
    }
  }

  lemma TakeDrop<T>(q: seq<T>, k: int)
    requires 0 <= k <= |q|
    ensures q == q[..k] + q[k..]
  {
  }

  lemma AppendAssoc<T>(a: seq<T>, b: seq<T>, c: seq<T>)
    ensures a + (b + c) == a + b + c
  {
  }

  /** A sequence is its prefix, one element and its suffix. */
  lemma SplitAt<T>(q: seq<T>, k: int)
    requires 0 <= k < |q|
    ensures q == q[..k] + [q[k]] + q[k + 1..]
  {
  }

  /** Deleting a name drops an entry with that name wherever it stands. */
  lemma DeleteAroundEntry(pre: seq<Param>, x: Param, post: seq<Param>, name: string)
    requires x.name == name
    ensures Delete(pre + [x] + post, name) == Delete(pre, name) + Delete(post, name)
  {
    assert Delete([x], name) == [];
    DeleteConcat(pre + [x], post, name);
    DeleteConcat(pre, [x], name);
  }

  /** `set` changes nothing but the entries with the name. */
  lemma SetKeepsOthers(q: seq<Param>, name: string, value: string)
    ensures Delete(Set(q, name, value), name) == Delete(q, name)
  {
    var p := Param(name, value);
    if HasName(q, name) {
      var k := FirstIndex(q, name);
      var pre, post := q[..k], q[k + 1..];
      SetAtFirst(q, name, value);
      DeleteAroundEntry(pre, p, Delete(post, name), name);
      DeleteAbsent(Delete(post, name), name);
      SplitAt(q, k);
      DeleteAroundEntry(pre, q[k], post, name);
    } else {
      SetAppends(q, name, value);
      DeleteAroundEntry(q, p, [], name);
      assert q + [p] + [] == q + [p];
    }
  }
}

=== FILE: wrappers.dfy ===
/** Failure-carrying result types shared by the other modules. */
module Wrappers {

  /** A value that may be absent (a regex that did not match, a parse that failed). */
  datatype Option<+T> = None | Some(value: T)

  /** The outcome of an operation that can fail with an error of type E. */
  datatype Result<+T, +E> = Success(value: T) | Failure(error: E)
}
